=== FILE: README.md ===
# Library catalogue: lending state machine and browser client, in Dafny

This project models the two small pieces of sequential logic on either side of the
`/books` REST boundary of a library-management application.

- **Server** (`BookService`, `BookDTO`): the catalogue is a repository of Book entities,
  modelled as a map from id to Book, the order `findAll` returns, and a counter that
  hands out fresh ids from 1. On top of it sit add, list, update-metadata, borrow,
  return and delete. Each either fails with not-found or already-borrowed, or changes
  exactly one entry in a stated way. The `@Valid` gate of the controller becomes a
  precondition (`Dto.Valid`, `Text.NotBlank` for the borrower name) and, in
  `ServiceProperties`, a filter on requests that makes "a lent book names a non-blank
  borrower" an invariant of every request sequence.
- **Client** (`app.js`): the snapshot of books, the filter projection, the confirmation
  text for return/delete, request targeting (method and URL) and where the controller routes
  it, the error-message fallbacks, the snapshot replacement rule of `fetchBooks`, the
  single-slot confirmation gate and the display defaults.

Modules: `Common` (Option/Result), `Text` (blank test, ASCII lower-casing, substring,
decimal rendering and parsing), `Sequences` (subsequences), `Dto`, `Repository`,
`Service`, `ServiceProperties`, `Catalog` (client book, JavaScript `||`, `find`),
`Filter`, `Requests`, `App`.

Assumptions stated explicitly in the model:
- The Book entity and its JPA repository lie outside this model; they are replaced by
  the map-with-counter store. The three-argument `Book(title, author, category)`
  constructor is assumed to create an available book with no borrower
  (`Repository.InitiallyAvailable`, `Repository.InitialBorrower`).
- `@NotBlank` is read as Java's `String.trim()` test: the string must hold a character
  above U+0020.
- JavaScript `a || b` on strings falls back for null, undefined and the empty string
  (`Catalog.JsOr`). So an empty category shows "General", and an empty server message
  falls back to the generic text.
- Because `JSON.stringify` of a parsed body is never empty, `saveBook` never shows
  "Action failed" on its own (`Requests.SaveNeverShowsGenericText`).

## Model

| member | source | states |
|---|---|---|
| Dto.Violations | src/main/java/com/library/library_management/dto/BookDTO.java:10-16 | validation reports no violation iff the DTO is valid; each of the four messages appears iff its constraint fails |
| Dto.Valid | src/main/java/com/library/library_management/dto/BookDTO.java:10-16 | a valid DTO has a present title of 2..100 and a present author of 2..50 characters |
| Dto.ValidMeansPresentAndSized | src/main/java/com/library/library_management/dto/BookDTO.java:10-15 | a valid DTO has a non-null, non-blank title of 2..100 characters and a non-null, non-blank author of 2..50 characters |
| Dto.UnconstrainedFields | src/main/java/com/library/library_management/dto/BookDTO.java:8-22 | changing id, category, available or borrowedBy never changes validity |
| Dto.BlankTitleRejected | src/main/java/com/library/library_management/dto/BookDTO.java:10-11 | a two-space title meets the size bound but is rejected as blank, with exactly the "Title is required" message |
| Dto.Set | src/main/java/com/library/library_management/dto/BookDTO.java:42-84 | after a setter the matching getter returns the new value and every other getter is unchanged |
| Dto.ConstructorStoresArguments | src/main/java/com/library/library_management/dto/BookDTO.java:28-35 | the six-argument constructor stores each argument where its getter reads it |
| Repository.Insert | src/main/java/com/library/library_management/service/BookService.java:25-26 | saving a new book allocates an id not yet stored, adds exactly that entry at the end of the order, available and with no borrower |
| Repository.Remove | src/main/java/com/library/library_management/service/BookService.java:82 | deleteById removes exactly that id from the map and from the order, the other ids keeping their order (`Repository.WithoutKeepsOrder`) |
| Repository.Put | src/main/java/com/library/library_management/service/BookService.java:47 | save of an existing book replaces exactly that entry, after which findById returns it; the set of ids and the order are kept |
| Repository.WithoutKeepsOrder | src/main/java/com/library/library_management/service/BookService.java:82 | after deleteById, findAll lists the remaining ids in their previous order |
| Repository.Find | src/main/java/com/library/library_management/service/BookService.java:39-40 | findById finds a book iff its id is stored, and the book found carries that id |
| Repository.FindAll | src/main/java/com/library/library_management/service/BookService.java:32 | findAll lists every stored book, each exactly once (pairwise distinct ids), and nothing else; the listing follows the repository order |
| Service.MapToDtoLossless | src/main/java/com/library/library_management/service/BookService.java:86-94 | mapToDTO copies every field: the entity is recovered from the DTO |
| Service.MapToDto | src/main/java/com/library/library_management/service/BookService.java:86-94 | the DTO describes exactly the entity it was mapped from |
| Service.MapToEntity | src/main/java/com/library/library_management/service/BookService.java:96-98 | the new entity takes title, author and category from the DTO, whether or not it carries an id, so a book mapped to a DTO and back keeps them |
| Service.Message | src/main/java/com/library/library_management/service/BookService.java:40-57 | the not-found message is its fixed prefix followed by the id, which parses back to the id (after a minus sign when negative); the id is printed without leading zeros; the already-borrowed message is its prefix followed by the borrower as Java prints it, "null" when there is none |
| Service.MessagesDistinct | src/main/java/com/library/library_management/service/BookService.java:54-57 | the already-borrowed message (prefix then the borrower as Java prints it) never equals a not-found message |
| Service.AddBook | src/main/java/com/library/library_management/service/BookService.java:24-28 | adding stores one new book under a fresh id, keeps every other book, takes title/author/category from the DTO and returns the saved book |
| Service.GetAllBooks | src/main/java/com/library/library_management/service/BookService.java:31-35 | one DTO per stored book, in repository order, each describing its book exactly; the ids listed are exactly the stored ids |
| Service.UpdateBook | src/main/java/com/library/library_management/service/BookService.java:38-49 | a missing id fails with not-found; otherwise only that book changes, in title/author/category only, keeping its availability and borrower |
| Service.BorrowBook | src/main/java/com/library/library_management/service/BookService.java:52-64 | a missing id fails with not-found; a lent book fails with already-borrowed and a message ending in the borrower's name; an available book becomes unavailable, lent to the requester, and nothing else changes |
| Service.ReturnBook | src/main/java/com/library/library_management/service/BookService.java:67-75 | a missing id fails with not-found; otherwise the book becomes available with no borrower whatever its state, and nothing else changes |
| Service.DeleteBook | src/main/java/com/library/library_management/service/BookService.java:78-83 | a missing id fails with not-found; otherwise exactly that id is removed, with no availability check |
| ServiceProperties.ApplyPreservesLending | src/main/java/com/library/library_management/controller/BookController.java:23-46 | with bodies gated by @Valid, every request keeps "available iff no borrower, and a lent book names a non-blank borrower" |
| ServiceProperties.Apply | src/main/java/com/library/library_management/controller/BookController.java:23-46 | a request whose body fails @Valid leaves the store as it was; no request changes a stored book other than the one it addresses |
| ServiceProperties.RunPreservesLending | src/main/java/com/library/library_management/service/BookService.java:52-75 | the lending invariant holds after any sequence of requests |
| ServiceProperties.OthersUntouched | src/main/java/com/library/library_management/service/BookService.java:38-83 | no request changes or removes a stored book other than the one it addresses |
| ServiceProperties.AddIgnoresClientFields | src/main/java/com/library/library_management/service/BookService.java:96-98 | a client-supplied id, availability or borrower has no effect on what addBook stores or returns |
| ServiceProperties.BorrowThenReturn | src/main/java/com/library/library_management/service/BookService.java:60-72 | borrowing an available book and returning it restores the store and the book exactly |
| ServiceProperties.ReturnIdempotent | src/main/java/com/library/library_management/service/BookService.java:67-75 | returning twice has the same effect as returning once |
| ServiceProperties.BorrowTwiceRefused | src/main/java/com/library/library_management/service/BookService.java:56-58 | a second borrower is refused, naming the first, and the store is unchanged |
| ServiceProperties.DeleteLentBook | src/main/java/com/library/library_management/service/BookService.java:78-83 | a lent book can be deleted, after which update, borrow, return and delete on its id fail with not-found |
| Catalog.Find | src/main/resources/static/js/app.js:181 | find returns the first snapshot book with the id, or nothing iff no book has it |
| Filter.ApplyFilters | src/main/resources/static/js/app.js:100-108 | the visible books are an order-preserving subsequence of the snapshot holding each matching book as often as the snapshot does, and no other |
| Filter.KeptIff | src/main/resources/static/js/app.js:104-108 | a book is shown iff it is in the snapshot and matches term and category |
| Filter.EmptyFilterShowsAll | src/main/resources/static/js/app.js:101-106 | an empty term with no category shows the whole snapshot in order |
| Filter.TermCaseInsensitive | src/main/resources/static/js/app.js:101-105 | lower-casing the term first changes nothing (within ASCII) |
| Filter.CategoryExact | src/main/resources/static/js/app.js:102-106 | a non-empty selector keeps only books whose category equals it exactly; a book without a category never matches it |
| Filter.DuneScenario | src/main/resources/static/js/app.js:100-108 | searching "dune" keeps Dune, searching "foo" keeps nothing |
| Requests.FormData | src/main/resources/static/js/app.js:116-121 | an empty id field is sent as null, a non-empty one as typed; the other fields are sent as typed |
| Requests.SubmitMethod | src/main/resources/static/js/app.js:123 | the form uses PUT exactly when editing and POST otherwise |
| Requests.SaveRequest | src/main/resources/static/js/app.js:205 | PUT addresses /books/{id} (with "null" for a null id), every other verb the collection |
| Requests.BorrowRequest | src/main/resources/static/js/app.js:139-143 | PUT to /books/{id}/borrow whose id segment reads back as the target, and as no id while the target is null |
| Requests.ReturnRequest | src/main/resources/static/js/app.js:186-188 | PUT to /books/{id}/return whose id segment reads back as the id |
| Requests.DeleteRequest | src/main/resources/static/js/app.js:233 | DELETE to /books/{id} whose id segment reads back as the id |
| Requests.Route | src/main/java/com/library/library_management/controller/BookController.java:20-52 | each handler is reached only with its own verb and path shape, and receives the id its path segment reads as |
| Requests.FetchRequestRouted | src/main/resources/static/js/app.js:34 | fetchBooks' GET /books reaches getAllBooks |
| Requests.SaveReachesIntendedHandler | src/main/java/com/library/library_management/controller/BookController.java:23-36 | adding reaches addBook; editing reaches updateBook for the id in the form; editing with an empty id sends /books/null, which reaches no handler |
| Requests.BorrowRequestRouted | src/main/java/com/library/library_management/controller/BookController.java:44-47 | the borrow request the client builds for an id reaches borrowBook for that id |
| Requests.ReturnRequestRouted | src/main/java/com/library/library_management/controller/BookController.java:49-52 | the return request the client builds for an id reaches returnBook for that id |
| Requests.DeleteRequestRouted | src/main/java/com/library/library_management/controller/BookController.java:38-42 | the delete request the client builds for an id reaches deleteBook for that id |
| Requests.BorrowWithoutTargetUnrouted | src/main/resources/static/js/app.js:139 | a borrow submitted before any borrow dialog was opened targets /books/null/borrow and reaches no handler |
| Requests.ErrorText | src/main/resources/static/js/app.js:145-236 | the notice shows a non-empty server message; otherwise save shows the serialized body, borrow "Borrowing failed", return "Return failed", delete "Failed to delete"; a non-JSON body counts as {} for return and delete, and its parse error shows for save and borrow |
| Requests.SaveNeverShowsGenericText | src/main/resources/static/js/app.js:215 | for a parsed body saveBook shows the server message or the serialized body, never the "Action failed" fallback |
| Requests.SuccessText | src/main/resources/static/js/app.js:218 | save shows a non-empty override as given, else "Book Added" for POST and "Book Updated" otherwise; borrow, return and delete show "Book Borrowed!", "Book Returned!" and "Book deleted" |
| Requests.SuccessNoticesDistinct | src/main/resources/static/js/app.js:150-238 | without an override the five success notices differ from each other and from every generic failure text |
| Requests.Settle | src/main/resources/static/js/app.js:145-155 | success shows a non-error notice and triggers a reload; a failed response shows the error text, a request that got no response shows the thrown error's message, and neither reloads |
| App.DisplayDefaults | src/main/resources/static/js/app.js:77 | a card shows "General" and the edit form "Fiction" for a missing or empty category, otherwise the category itself; a lent card shows "Unknown" for a missing borrower |
| App.CardOf | src/main/resources/static/js/app.js:61-71 | a card offers Borrow exactly for an available book and Return otherwise, for that book's id; a checked-out card names the borrower or "Unknown"; the category defaults to "General" |
| App.Render | src/main/resources/static/js/app.js:44-57 | the empty state shows exactly when there is no book to show; otherwise one card per book in order, offering Borrow exactly for the available ones |
| App.EmptyStateIffNoMatch | src/main/resources/static/js/app.js:47-50 | after a filter change the empty state shows exactly when no book in the snapshot matches |
| App.CardButtonReachesServer | src/main/resources/static/js/app.js:61-71 | a card's Borrow button leads to borrowBook and its Return button to returnBook for the card's book |
| App.LentBookShowsBorrower | src/main/resources/static/js/app.js:68 | a book lent under the server's invariant shows its borrower's name, not "Unknown" |
| App.EditWithoutCategorySubmitsFiction | src/main/resources/static/js/app.js:256 | saving the edit form of a book without a category submits "Fiction" |
| App.SetFilters | src/main/resources/static/js/app.js:100-109 | changing the search or the selector stores the new term and category and shows exactly the filtered snapshot, in order; nothing else changes |
| App.FetchBooks | src/main/resources/static/js/app.js:32-41 | the snapshot is replaced and the filters re-applied only after an ok response that parses; a non-ok status shows "Failed to fetch books", a network or parse failure shows the error's own message; success leaves the notice alone, and nothing else changes |
| App.FetchIdempotent | src/main/resources/static/js/app.js:36-37 | loading the same catalogue twice equals loading it once |
| App.AfterResponse | src/main/resources/static/js/app.js:184-200 | a mutation's outcome never touches the snapshot; only success leads to a refetch; success shows the success text as a non-error notice, a failure the error text, a missing response the thrown error's message; nothing but the notice changes |
| App.Proceed | src/main/resources/static/js/app.js:169-176 | proceeding runs the pending action, if any, and closes the gate |
| App.ShowConfirm | src/main/resources/static/js/app.js:159-177 | the dialog now holds exactly this title, message and action, replacing any earlier one; nothing else changes |
| App.Dismiss | src/main/resources/static/js/app.js:267-269 | closing the dialog empties the slot and changes nothing else |
| App.LatestConfirmWins | src/main/resources/static/js/app.js:169-176 | after two requests only the latest action runs, and only once |
| App.DismissRunsNothing | src/main/resources/static/js/app.js:267-269 | closing the dialog without proceeding runs no action and leaves the snapshot |
| App.ReturnMessage | src/main/resources/static/js/app.js:181-182 | the return prompt quotes the title of the snapshot's book with the id, and is "Return this book?" exactly when there is none |
| App.DeleteMessage | src/main/resources/static/js/app.js:228-229 | the delete prompt quotes the title of the snapshot's book with the id, and is "Delete this book?" exactly when there is none |
| App.RequestReturn | src/main/resources/static/js/app.js:180-184 | returnBook offers the return of that id under "Confirm Return", with the generic message exactly when the id is not in the snapshot, and otherwise a message quoting the book's title |
| App.RequestDelete | src/main/resources/static/js/app.js:227-231 | deleteBook offers the delete of that id under "Confirm Delete", with the generic message exactly when the id is not in the snapshot, and otherwise a message quoting the book's title |
| App.ConfirmedActionsReachServer | src/main/resources/static/js/app.js:180-201 | whether or not the id is in the snapshot, proceeding sends the return or delete request for that id to its handler |
| App.OpenModal | src/main/resources/static/js/app.js:247-265 | a truthy id prefills the form from the snapshot's book (category defaulting to "Fiction") and enters edit mode; no id or id 0 resets the form and leaves edit mode; nothing but the form and the edit flag changes |
| App.FormReachesIntendedHandler | src/main/resources/static/js/app.js:113-124 | the edit form opened for a book in the list, when submitted, reaches the server's updateBook for that book's id |
| App.AddFormReachesIntendedHandler | src/main/resources/static/js/app.js:113-124 | the form opened without an id, when submitted, reaches the server's addBook |
| App.OpenBorrowModal | src/main/resources/static/js/app.js:127-132 | opening the borrow dialog records the id as the target and clears the name; nothing else changes |
| App.BorrowReachesIntendedHandler | src/main/resources/static/js/app.js:127-143 | the borrow dialog opened for an id borrows that id |

## Left out

- DOM rendering, modal visibility, the toast timer and event wiring (app.js lines 1-29, 44-97, 267-284): the HTML markup, icons and CSS classes are not modelled; what renderBooks decides (the empty state, and each card's texts and buttons) is modelled by App.Render and App.CardOf.
- Network I/O and JSON parsing: a response is an abstract value: ok; not ok with a body that is either unparseable or parsed with an optional message; or no response at all, with the thrown error's message. A JSON `null` error body, which would raise a TypeError, is not modelled.
- Overlapping in-flight requests and stale responses: the model is sequential.
- Status codes of the controller (201/200/204/400/404/409) and the exception-to-HTTP mapping: only the `@Valid` gate and the URL mappings are kept.
- The JPA entity and repository: replaced by the map-with-counter store; `findAll` order is taken to be insertion order.
- Text.Lower: ASCII case mapping only; JavaScript's `toLowerCase` maps all of Unicode.
- Dto.Valid: lengths count Unicode scalar values; Java's `@Size` counts UTF-16 code units, which differ for characters outside the Basic Multilingual Plane.
- Requests.Route: only unsigned decimal ids are routed; Spring would also accept a signed `Long` such as "-3". The allocator never produces such ids. Conversely, Route accepts digit strings of any length, while Spring rejects values at or above 2^63.
- App.OpenModal: requires the id to be in the snapshot, because openModal dereferences the result of `books.find` without a guard.
- Client book ids are natural numbers and titles and authors are strings; non-array or malformed catalogue JSON is not modelled.

=== FILE: app.dfy ===
/** The client's state and the pure decisions app.js makes on it: the snapshot update after
    a fetch, the single-slot confirmation gate, the return/delete/edit/borrow flows and
    the display defaults. DOM updates, modals' visibility and timers are not modelled. */
module App {
  import opened Common
  import Text
  import opened Catalog
  import opened Filter
  import opened Requests

  /** The deferred action a confirmation dialog holds. */
  datatype Action = ReturnAction(id: nat) | DeleteAction(id: nat)

  /** An open confirmation dialog: its heading, its message and the action its proceed
      button runs. */
  datatype Pending = Pending(title: string, message: string, onConfirm: Action)

  /** The script's global state and the form fields it reads. */
  datatype ClientState = ClientState(
    books: seq<ClientBook>,
    term: string,
    category: string,
    visible: seq<ClientBook>,
    editing: bool,
    form: Form,
    borrowTarget: Option<nat>,
    borrowerName: string,
    confirm: Option<Pending>,
    toast: Option<Notice>)

  // ---------------------------------------------------------------- display defaults

  /** The category line of a card. */
  function CategoryLabel(b: ClientBook): string {
    JsOr(b.category, "General")
  }

  /** The borrower line of a lent book's card. */
  function BorrowerLabel(b: ClientBook): string {
    JsOr(b.borrowedBy, "Unknown")
  }

  /** The category the edit form is prefilled with. */
  function EditCategory(b: ClientBook): string {
    JsOr(b.category, "Fiction")
  }

  /** A card shows the category it has, or "General" when it has none (or an empty one);
      the edit form shows the same category, or "Fiction" in that case. */
  lemma DisplayDefaults(b: ClientBook)
    ensures b.category.Some? && b.category.value != "" ==>
      CategoryLabel(b) == b.category.value && EditCategory(b) == b.category.value
    ensures b.category.None? || b.category == Some("") ==>
      CategoryLabel(b) == "General" && EditCategory(b) == "Fiction"
    ensures BorrowerLabel(b) == (if b.borrowedBy.Some? && b.borrowedBy.value != "" then b.borrowedBy.value else "Unknown")
  {
  }

  /** A book lent under the server's rules names a non-blank borrower, so its card shows that
      name and never the "Unknown" default in its place. */
  lemma LentBookShowsBorrower(b: ClientBook)
    requires !b.available && b.borrowedBy.Some? && Text.NotBlank(b.borrowedBy.value)
    ensures BorrowerLabel(b) == b.borrowedBy.value
  {
  }

  // ---------------------------------------------------------------- book cards

  /** The status line of a card. */
  datatype Status = Available | CheckedOut(borrower: string)

  /** The lending button of a card: Borrow opens the borrow dialog, Return asks to
      confirm a return. */
  datatype Button = BorrowButton(id: nat) | ReturnButton(id: nat)

  /** What renderBooks shows for one book; `id` is what its edit and delete buttons pass. */
  datatype Card = Card(id: nat, category: string, title: string, author: string, status: Status, action: Button)

  /** The book list: the empty-state indicator, or one card per book. */
  datatype View = EmptyState | Cards(cards: seq<Card>)

  /** The card for one book: an available book offers Borrow, any other offers Return
      and names its borrower. */
  function CardOf(b: ClientBook): (c: Card)
    ensures c.id == b.id && c.action.id == b.id
    ensures c.action.BorrowButton? <==> b.available
    ensures c.status.Available? <==> b.available
    ensures !b.available ==> c.status.borrower == BorrowerLabel(b)
    ensures c.category == CategoryLabel(b) && c.title == b.title && c.author == b.author
  {
    if b.available then
      Card(b.id, CategoryLabel(b), b.title, b.author, Available, BorrowButton(b.id))
    else
      Card(b.id, CategoryLabel(b), b.title, b.author, CheckedOut(BorrowerLabel(b)), ReturnButton(b.id))
  }

  /** renderBooks: the empty state exactly when no book is to be shown; otherwise one card
      per book, in order, offering Borrow exactly for the available ones. */
  function Render(visible: seq<ClientBook>): (v: View)
    ensures v.EmptyState? <==> |visible| == 0
    ensures v.Cards? ==> |v.cards| == |visible|
    ensures v.Cards? ==> forall i :: 0 <= i < |visible| ==>
      v.cards[i].id == visible[i].id && (v.cards[i].action.BorrowButton? <==> visible[i].available)
  {
    if |visible| == 0 then EmptyState
    else Cards(seq(|visible|, i requires 0 <= i < |visible| => CardOf(visible[i])))
  }

  /** After a filter change the empty state shows exactly when no book in the snapshot
      matches the term and the category. */
  lemma EmptyStateIffNoMatch(st: ClientState, term: string, cat: string)
    ensures Render(SetFilters(st, term, cat).visible).EmptyState? <==>
      forall b :: b in st.books ==> !Matches(b, term, cat)
  {
    var visible := SetFilters(st, term, cat).visible;
    if |visible| > 0 {
      assert visible[0] in visible;
    }
  }

  // ---------------------------------------------------------------- filters and fetch

  /** A change of the search box or the category selector recomputes the visible books. */
  function SetFilters(st: ClientState, term: string, cat: string): (r: ClientState)
    ensures r.term == term && r.category == cat
    ensures r.visible == ApplyFilters(st.books, term, cat)
    ensures forall b :: b in r.visible <==> b in st.books && Matches(b, term, cat)
    ensures r.(term := st.term, category := st.category, visible := st.visible) == st
  {
    forall b ensures b in ApplyFilters(st.books, term, cat) <==> b in st.books && Matches(b, term, cat) {
      KeptIff(st.books, term, cat, b);
    }
    st.(term := term, category := cat, visible := ApplyFilters(st.books, term, cat))
  }

  /** The outcome of `fetch(API_URL)` and of parsing its body. */
  datatype FetchResponse =
    | NetworkError(reason: string)
    | NotOk
    | Unparseable(reason: string)
    | Fetched(list: seq<ClientBook>)

  const FetchFailed := "Failed to fetch books"

  /** fetchBooks: the snapshot is replaced, and the filters re-applied, only after an ok
      response whose body parses; any failure keeps the previous snapshot and shows an
      error notice. */
  function FetchBooks(st: ClientState, resp: FetchResponse): (r: ClientState)
    ensures r.books != st.books ==> resp.Fetched?
    ensures resp.Fetched? ==> r.books == resp.list && r.visible == ApplyFilters(resp.list, st.term, st.category)
    ensures !resp.Fetched? ==> r.books == st.books && r.visible == st.visible && r.toast.Some? && r.toast.value.isError
    ensures resp.NotOk? ==> r.toast == Some(Notice(FetchFailed, true))
    ensures resp.NetworkError? || resp.Unparseable? ==> r.toast == Some(Notice(resp.reason, true))
    ensures resp.Fetched? ==> r.toast == st.toast
    ensures r.(books := st.books, visible := st.visible, toast := st.toast) == st
    ensures r.term == st.term && r.category == st.category && r.confirm == st.confirm
  {
    match resp
    case Fetched(list) => st.(books := list, visible := ApplyFilters(list, st.term, st.category))
    case NotOk => st.(toast := Some(Notice(FetchFailed, true)))
    case NetworkError(reason) => st.(toast := Some(Notice(reason, true)))
    case Unparseable(reason) => st.(toast := Some(Notice(reason, true)))
  }

  /** Loading the same catalogue twice gives the same state as loading it once. */
  lemma FetchIdempotent(st: ClientState, list: seq<ClientBook>)
    ensures FetchBooks(FetchBooks(st, Fetched(list)), Fetched(list)) == FetchBooks(st, Fetched(list))
  {
  }

  /** After a mutation's response: the notice is shown and the snapshot is left alone; the
      returned flag says whether fetchBooks runs next. */
  function AfterResponse(st: ClientState, op: Operation, resp: Response): (r: (ClientState, bool))
    ensures r.0.books == st.books && r.0.visible == st.visible
    ensures r.1 <==> resp.Succeeded?
    ensures resp.Failed? ==> r.0.toast == Some(Notice(ErrorText(op, resp.body), true))
    ensures resp.Unreachable? ==> r.0.toast == Some(Notice(resp.reason, true))
    ensures resp.Succeeded? ==> r.0.toast == Some(Notice(SuccessText(op), false))
    ensures r.0.(toast := st.toast) == st
  {
    var s := Settle(op, resp);
    (st.(toast := Some(s.notice)), s.reload)
  }

  // ---------------------------------------------------------------- confirmation gate

  /** showConfirm: the dialog now holds this action; a previous one is no longer reachable. */
  function ShowConfirm(st: ClientState, title: string, message: string, action: Action): (r: ClientState)
    ensures r.confirm.Some? && r.confirm.value.onConfirm == action
    ensures r.confirm.value.title == title && r.confirm.value.message == message
    ensures r.(confirm := st.confirm) == st
  {
    st.(confirm := Some(Pending(title, message, action)))
  }

  /** Pressing proceed closes the dialog and runs the action it holds, if any. */
  function Proceed(st: ClientState): (r: (ClientState, Option<Action>))
    ensures r.0.confirm.None?
    ensures st.confirm.None? ==> r.1.None?
    ensures st.confirm.Some? ==> r.1 == Some(st.confirm.value.onConfirm)
    ensures r.0 == st.(confirm := None)
  {
    match st.confirm
    case None => (st, None)
    case Some(p) => (st.(confirm := None), Some(p.onConfirm))
  }

  /** Closing the dialog without proceeding. */
  function Dismiss(st: ClientState): (r: ClientState)
    ensures r.confirm.None?
    ensures r.(confirm := st.confirm) == st
  {
    st.(confirm := None)
  }

  /** Only the latest request's action can run, and it runs at most once. */
  lemma LatestConfirmWins(st: ClientState, t1: string, m1: string, a1: Action, t2: string, m2: string, a2: Action)
    ensures var gate := ShowConfirm(ShowConfirm(st, t1, m1, a1), t2, m2, a2);
      && Proceed(gate).1 == Some(a2)
      && Proceed(Proceed(gate).0).1 == None
  {
  }

  /** A dismissed request runs nothing, even if proceed is pressed afterwards. */
  lemma DismissRunsNothing(st: ClientState, t: string, m: string, a: Action)
    ensures Proceed(Dismiss(ShowConfirm(st, t, m, a))).1 == None
    ensures Dismiss(ShowConfirm(st, t, m, a)).books == st.books
  {
  }

  // ---------------------------------------------------------------- return and delete

  const ReturnPrefix := "Are you sure you want to return "
  const DeletePrefix := "Delete "

  function Quoted(s: string): string {
    "'" + s + "'"
  }

  /** `prefix + Quoted(t) + rest` contains the quoted title. */
  lemma QuotedOccurs(prefix: string, t: string, rest: string)
    ensures Text.Contains(prefix + Quoted(t) + rest, Quoted(t))
  {
    var s := prefix + Quoted(t) + rest;
    assert s[|prefix|..|prefix| + |Quoted(t)|] == Quoted(t);
    assert Text.OccursAt(s, Quoted(t), |prefix|);
  }

  /** The return dialog's message: quotes the title of the snapshot's book with that id,
      or is generic when the snapshot has no such book. */
  function ReturnMessage(books: seq<ClientBook>, id: nat): (r: string)
    ensures Find(books, id).Some? ==> Text.Contains(r, Quoted(Find(books, id).value.title))
    ensures Find(books, id).None? <==> r == "Return this book?"
  {
    match Find(books, id)
    case Some(b) =>
      QuotedOccurs(ReturnPrefix, b.title, "?");
      assert (ReturnPrefix + Quoted(b.title) + "?")[0] == 'A';
      ReturnPrefix + Quoted(b.title) + "?"
    case None => "Return this book?"
  }

  /** The delete dialog's message, chosen the same way. */
  function DeleteMessage(books: seq<ClientBook>, id: nat): (r: string)
    ensures Find(books, id).Some? ==> Text.Contains(r, Quoted(Find(books, id).value.title))
    ensures Find(books, id).None? <==> r == "Delete this book?"
  {
    match Find(books, id)
    case Some(b) =>
      QuotedOccurs(DeletePrefix, b.title, " permanently?");
      var r := DeletePrefix + Quoted(b.title) + " permanently?";
      assert r[7] == '\'';
      r
    case None => "Delete this book?"
  }

  /** returnBook(id): opens the dialog for a return of that id. */
  function RequestReturn(st: ClientState, id: nat): (r: ClientState)
    ensures r.confirm.Some? && r.confirm.value.onConfirm == ReturnAction(id)
    ensures r.confirm.value.title == "Confirm Return"
    ensures Find(st.books, id).None? <==> r.confirm.value.message == "Return this book?"
    ensures Find(st.books, id).Some? ==> Text.Contains(r.confirm.value.message, Quoted(Find(st.books, id).value.title))
    ensures r.(confirm := st.confirm) == st
  {
    ShowConfirm(st, "Confirm Return", ReturnMessage(st.books, id), ReturnAction(id))
  }

  /** deleteBook(id): opens the dialog for a delete of that id. */
  function RequestDelete(st: ClientState, id: nat): (r: ClientState)
    ensures r.confirm.Some? && r.confirm.value.onConfirm == DeleteAction(id)
    ensures r.confirm.value.title == "Confirm Delete"
    ensures Find(st.books, id).None? <==> r.confirm.value.message == "Delete this book?"
    ensures Find(st.books, id).Some? ==> Text.Contains(r.confirm.value.message, Quoted(Find(st.books, id).value.title))
    ensures r.(confirm := st.confirm) == st
  {
    ShowConfirm(st, "Confirm Delete", DeleteMessage(st.books, id), DeleteAction(id))
  }

  /** The request a confirmed action sends. */
  function ActionRequest(a: Action): Request {
    match a
    case ReturnAction(id) => ReturnRequest(id)
    case DeleteAction(id) => DeleteRequest(id)
  }

  /** Whether or not the id is in the snapshot, proceeding sends the return (delete) request
      for that id, which reaches the server's returnBook (deleteBook) handler. */
  lemma ConfirmedActionsReachServer(st: ClientState, id: nat)
    ensures var fired := Proceed(RequestReturn(st, id)).1;
      fired == Some(ReturnAction(id)) && Route(ActionRequest(fired.value)) == ReturnBook(id)
    ensures var fired := Proceed(RequestDelete(st, id)).1;
      fired == Some(DeleteAction(id)) && Route(ActionRequest(fired.value)) == DeleteBook(id)
  {
    ReturnRequestRouted(id);
    DeleteRequestRouted(id);
  }

  // ---------------------------------------------------------------- add/edit form and borrow

  /** openModal(id): a truthy id (JavaScript treats 0 as false) opens the edit form prefilled
      from the snapshot's book; openModal does not guard against an id missing from the
      snapshot, so this model requires it to be present. Otherwise the form is reset to
      its HTML defaults `reset` with an empty id. */
  function OpenModal(st: ClientState, id: Option<nat>, reset: Form): (r: ClientState)
    requires id.Some? && id.value != 0 ==> Find(st.books, id.value).Some?
    ensures r.editing <==> id.Some? && id.value != 0
    ensures r.editing ==> var b := Find(st.books, id.value).value;
      && r.form.bookId == Text.Decimal(id.value)
      && r.form.title == b.title && r.form.author == b.author
      && r.form.category == EditCategory(b)
    ensures !r.editing ==> r.form == reset.(bookId := "")
    ensures r.(form := st.form, editing := st.editing) == st
  {
    if id.Some? && id.value != 0 then
      var b := Find(st.books, id.value).value;
      st.(form := Form(Text.Decimal(b.id), b.title, b.author, EditCategory(b)), editing := true)
    else
      st.(form := reset.(bookId := ""), editing := false)
  }

  /** handleFormSubmit: the request saveBook sends for the current form. */
  function SubmitForm(st: ClientState): Request {
    SaveRequest(FormData(st.form), SubmitMethod(st.editing))
  }

  /** Opening the form for a book in the snapshot and submitting it updates that book. */
  lemma FormReachesIntendedHandler(st: ClientState, id: nat, reset: Form)
    requires id != 0 && Find(st.books, id).Some?
    ensures Route(SubmitForm(OpenModal(st, Some(id), reset))) == UpdateBook(id)
  {
    SaveReachesIntendedHandler(OpenModal(st, Some(id), reset).form, id);
  }

  /** Opening the form without an id and submitting it adds a book. */
  lemma AddFormReachesIntendedHandler(st: ClientState, reset: Form)
    ensures Route(SubmitForm(OpenModal(st, None, reset))) == AddBook
  {
    SaveReachesIntendedHandler(OpenModal(st, None, reset).form, 1);
  }

  /** Saving the edit form of a book without a category submits "Fiction" as its category. */
  lemma EditWithoutCategorySubmitsFiction(st: ClientState, id: nat, reset: Form)
    requires id != 0 && Find(st.books, id).Some? && Find(st.books, id).value.category.None?
    ensures FormData(OpenModal(st, Some(id), reset).form).category == "Fiction"
  {
  }

  /** openBorrowModal(id): remembers the id and clears the name field. */
  function OpenBorrowModal(st: ClientState, id: nat): (r: ClientState)
    ensures r.borrowTarget == Some(id) && r.borrowerName == ""
    ensures r.(borrowTarget := st.borrowTarget, borrowerName := st.borrowerName) == st
  {
    st.(borrowTarget := Some(id), borrowerName := "")
  }

  /** handleBorrowSubmit: the request it sends. */
  function SubmitBorrow(st: ClientState): Request {
    BorrowRequest(st.borrowTarget)
  }

  /** Submitting the borrow dialog reaches the server's borrowBook for the id it was opened
      with; before any dialog was opened the target is null and no handler is reached. */
  lemma BorrowReachesIntendedHandler(st: ClientState, id: nat)
    ensures Route(SubmitBorrow(OpenBorrowModal(st, id))) == BorrowBook(id)
    ensures st.borrowTarget.None? ==> Route(SubmitBorrow(st)) == NoRoute
  {
    BorrowRequestRouted(id);
    BorrowWithoutTargetUnrouted();
  }

  /** A card's lending button reaches the server's borrowBook for an available book (once
      the dialog is submitted) and returnBook for any other (once the return is confirmed). */
  lemma CardButtonReachesServer(st: ClientState, b: ClientBook)
    ensures CardOf(b).action.BorrowButton? ==>
      Route(SubmitBorrow(OpenBorrowModal(st, CardOf(b).action.id))) == BorrowBook(b.id)
    ensures CardOf(b).action.ReturnButton? ==>
      Route(ActionRequest(Proceed(RequestReturn(st, CardOf(b).action.id)).1.value)) == ReturnBook(b.id)
  {
    BorrowReachesIntendedHandler(st, b.id);
    ConfirmedActionsReachServer(st, b.id);
  }
}

=== FILE: catalog.dfy ===
/** The browser's snapshot of the catalogue (the `books` array in app.js) and the
    JavaScript value rules the client logic relies on. */
module Catalog {
  import opened Common

  /** A book as the client receives it in JSON; null or missing members are `None`. */
  datatype ClientBook = ClientBook(
    id: nat,
    title: string,
    author: string,
    category: Option<string>,
    available: bool,
    borrowedBy: Option<string>)

  /** JavaScript `v || fallback` on a string member: null, undefined and '' are falsy. */
  function JsOr(v: Option<string>, fallback: string): (r: string)
    ensures v.Some? && v.value != "" ==> r == v.value
    ensures v.None? || v.value == "" ==> r == fallback
  {
    if v.Some? && v.value != "" then v.value else fallback
  }

  /** `books.find(b => b.id == id)`: the first book in the snapshot with that id. */
  function Find(books: seq<ClientBook>, id: nat): (r: Option<ClientBook>)
    ensures r.None? <==> forall i :: 0 <= i < |books| ==> books[i].id != id
    ensures r.Some? ==> r.value.id == id
    ensures r.Some? ==> exists i :: 0 <= i < |books| && books[i] == r.value && (forall j :: 0 <= j < i ==> books[j].id != id)
    decreases |books|
  {
    if |books| == 0 then None
    else if books[0].id == id then Some(books[0])
    else
      var r := Find(books[1..], id);
      assert forall i :: 1 <= i < |books| ==> books[i] == books[1..][i - 1];
      if r.Some? then
        ghost var i :| 0 <= i < |books[1..]| && books[1..][i] == r.value && (forall j :: 0 <= j < i ==> books[1..][j].id != id);
        assert books[i + 1] == r.value;
        r
      else r
  }
}

=== FILE: common.dfy ===
/** Shared value wrappers: a nullable value and the outcome of an operation that may fail. */
module Common {

  /** A Java reference or JSON value that may be null/undefined. */
  datatype Option<+T> = None | Some(value: T)

  /** The result of a service call: a value, or the exception it throws. */
  datatype Result<+T, +E> = Ok(value: T) | Err(error: E)
}

=== FILE: dto.dfy ===
/** BookDTO: the record exchanged over the /books boundary and its Bean Validation constraints. */
module Dto {
  import opened Common
  import Text

  /** The six fields of BookDTO; Java nulls are `None`. */
  datatype BookDto = BookDto(
    id: Option<int>,
    title: Option<string>,
    author: Option<string>,
    category: Option<string>,
    available: bool,
    borrowedBy: Option<string>)

  const TitleMin := 2
  const TitleMax := 100
  const AuthorMin := 2
  const AuthorMax := 50

  const TitleRequired := "Title is required"
  const TitleSize := "Title must be between 2 and 100 characters"
  const AuthorRequired := "Author is required"
  const AuthorSize := "Author must be between 2 and 50 characters"

  /** @NotBlank: non-null and not only trimmable characters. */
  predicate NotBlankField(s: Option<string>) {
    s.Some? && Text.NotBlank(s.value)
  }

  /** @Size(min, max): null is accepted; otherwise the length must lie in [min, max]. */
  predicate SizeOk(s: Option<string>, min: nat, max: nat) {
    s.None? || min <= |s.value| <= max
  }

  /** The constraints `@Valid` enforces on a request body. */
  predicate Valid(d: BookDto)
    ensures Valid(d) ==> d.title.Some? && TitleMin <= |d.title.value| <= TitleMax
    ensures Valid(d) ==> d.author.Some? && AuthorMin <= |d.author.value| <= AuthorMax
  {
    && NotBlankField(d.title) && SizeOk(d.title, TitleMin, TitleMax)
    && NotBlankField(d.author) && SizeOk(d.author, AuthorMin, AuthorMax)
  }

  /** The constraint messages a validation of `d` reports (Bean Validation reports them as a set). */
  function Violations(d: BookDto): (r: set<string>)
    ensures r == {} <==> Valid(d)
    ensures TitleRequired in r <==> !NotBlankField(d.title)
    ensures TitleSize in r <==> !SizeOk(d.title, TitleMin, TitleMax)
    ensures AuthorRequired in r <==> !NotBlankField(d.author)
    ensures AuthorSize in r <==> !SizeOk(d.author, AuthorMin, AuthorMax)
  {
    (if NotBlankField(d.title) then {} else {TitleRequired})
    + (if SizeOk(d.title, TitleMin, TitleMax) then {} else {TitleSize})
    + (if NotBlankField(d.author) then {} else {AuthorRequired})
    + (if SizeOk(d.author, AuthorMin, AuthorMax) then {} else {AuthorSize})
  }

  /** A valid DTO has a present, non-blank title of 2..100 characters and a present,
      non-blank author of 2..50 characters. */
  lemma ValidMeansPresentAndSized(d: BookDto)
    requires Valid(d)
    ensures d.title.Some? && Text.NotBlank(d.title.value) && 2 <= |d.title.value| <= 100
    ensures d.author.Some? && Text.NotBlank(d.author.value) && 2 <= |d.author.value| <= 50
  {
  }

  /** id, category, available and borrowedBy carry no constraint: changing them never
      changes validity. */
  lemma UnconstrainedFields(d: BookDto, id: Option<int>, category: Option<string>,
                            available: bool, borrowedBy: Option<string>)
    ensures Valid(d) <==> Valid(d.(id := id, category := category, available := available, borrowedBy := borrowedBy))
  {
  }

  /** Two characters that are both blank fail @NotBlank although they meet @Size. */
  lemma BlankTitleRejected()
    ensures !Valid(BookDto(None, Some("  "), Some("Herbert"), None, true, None))
    ensures Violations(BookDto(None, Some("  "), Some("Herbert"), None, true, None)) == {TitleRequired}
  {
    var d := BookDto(None, Some("  "), Some("Herbert"), None, true, None);
    assert !Text.NotBlank("  ") by {
      assert forall i :: 0 <= i < 2 ==> Text.IsTrimmable("  "[i]);
    }
    assert Text.NotBlank("Herbert") by {
      assert !Text.IsTrimmable("Herbert"[0]);
    }
  }

  /** The fields of BookDTO, addressed by its getters and setters. */
  datatype Field = Id | Title | Author | Category | Available | BorrowedBy

  datatype FieldValue = IdValue(id: Option<int>) | TextValue(text: Option<string>) | FlagValue(flag: bool)

  /** A value of the Java type the field is declared with. */
  predicate Fits(f: Field, v: FieldValue) {
    match f
    case Id => v.IdValue?
    case Available => v.FlagValue?
    case _ => v.TextValue?
  }

  /** The getter of a field. */
  function Get(d: BookDto, f: Field): (v: FieldValue)
    ensures Fits(f, v)
  {
    match f
    case Id => IdValue(d.id)
    case Title => TextValue(d.title)
    case Author => TextValue(d.author)
    case Category => TextValue(d.category)
    case Available => FlagValue(d.available)
    case BorrowedBy => TextValue(d.borrowedBy)
  }

  /** The setter of a field: the matching getter returns the new value afterwards and
      every other getter returns what it returned before. */
  function Set(d: BookDto, f: Field, v: FieldValue): (r: BookDto)
    requires Fits(f, v)
    ensures Get(r, f) == v
    ensures forall g :: g != f ==> Get(r, g) == Get(d, g)
  {
    match f
    case Id => d.(id := v.id)
    case Title => d.(title := v.text)
    case Author => d.(author := v.text)
    case Category => d.(category := v.text)
    case Available => d.(available := v.flag)
    case BorrowedBy => d.(borrowedBy := v.text)
  }

  /** The six-argument constructor stores each argument where its getter finds it. */
  lemma ConstructorStoresArguments(id: Option<int>, title: Option<string>, author: Option<string>,
                                   category: Option<string>, available: bool, borrowedBy: Option<string>)
    ensures var d := BookDto(id, title, author, category, available, borrowedBy);
      && Get(d, Id) == IdValue(id) && Get(d, Title) == TextValue(title)
      && Get(d, Author) == TextValue(author) && Get(d, Category) == TextValue(category)
      && Get(d, Available) == FlagValue(available) && Get(d, BorrowedBy) == TextValue(borrowedBy)
  {
  }
}

=== FILE: filter.dfy ===
/** applyFilters: the visible part of the snapshot for a search term and a category selector. */
module Filter {
  import opened Common
  import opened Text
  import opened Sequences
  import opened Catalog

  /** The lower-cased term occurs in the lower-cased title or author. */
  predicate MatchesTerm(b: ClientBook, term: string) {
    var t := Lower(term);
    Contains(Lower(b.title), t) || Contains(Lower(b.author), t)
  }

  /** The selector is the empty "all categories" choice, or equals the category exactly. */
  predicate MatchesCategory(b: ClientBook, cat: string) {
    cat == "" || b.category == Some(cat)
  }

  predicate Matches(b: ClientBook, term: string, cat: string) {
    MatchesTerm(b, term) && MatchesCategory(b, cat)
  }

  /** The books kept, in snapshot order: an order-preserving subsequence holding every
      matching book as often as the snapshot does, and nothing else. */
  function ApplyFilters(books: seq<ClientBook>, term: string, cat: string): (r: seq<ClientBook>)
    ensures IsSubsequence(r, books)
    ensures forall x :: multiset(r)[x] == (if Matches(x, term, cat) then multiset(books)[x] else 0)
    decreases |books|
  {
    if |books| == 0 then []
    else
      var rest := ApplyFilters(books[1..], term, cat);
      assert books == [books[0]] + books[1..];
      if Matches(books[0], term, cat) then
        assert ([books[0]] + rest)[1..] == rest;
        [books[0]] + rest
      else
        SubsequenceExtend(rest, books[1..], books[0]);
        rest
  }

  /** A book is shown iff it is in the snapshot and matches. */
  lemma KeptIff(books: seq<ClientBook>, term: string, cat: string, b: ClientBook)
    ensures b in ApplyFilters(books, term, cat) <==> b in books && Matches(b, term, cat)
  {
    var r := ApplyFilters(books, term, cat);
    assert b in r <==> multiset(r)[b] > 0;
    assert b in books <==> multiset(books)[b] > 0;
  }

  /** An empty term with no category selected shows the whole snapshot. */
  lemma {:induction false} EmptyFilterShowsAll(books: seq<ClientBook>)
    ensures ApplyFilters(books, "", "") == books
    decreases |books|
  {
    if |books| > 0 {
      assert Lower("") == "";
      ContainsEmpty(Lower(books[0].title));
      EmptyFilterShowsAll(books[1..]);
    }
  }

  /** The term is matched case-insensitively: lower-casing it first changes nothing. */
  lemma {:induction false} TermCaseInsensitive(books: seq<ClientBook>, term: string, cat: string)
    ensures ApplyFilters(books, Lower(term), cat) == ApplyFilters(books, term, cat)
    decreases |books|
  {
    LowerIdempotent(term);
    if |books| > 0 {
      TermCaseInsensitive(books[1..], term, cat);
    }
  }

  /** The category match is exact and case-sensitive; a book without a category never
      matches a concrete category. */
  lemma CategoryExact(b: ClientBook, term: string, cat: string)
    requires cat != ""
    ensures Matches(b, term, cat) ==> b.category == Some(cat)
    ensures b.category.None? ==> !Matches(b, term, cat)
  {
  }

  const Dune := ClientBook(1, "Dune", "Herbert", Some("Sci-Fi"), true, None)

  /** Searching "dune" finds Dune; searching "foo" finds nothing. */
  lemma DuneScenario()
    ensures ApplyFilters([Dune], "dune", "") == [Dune]
    ensures ApplyFilters([Dune], "foo", "") == []
  {
    assert Lower("Dune") == "dune";
    assert OccursAt(Lower(Dune.title), Lower("dune"), 0);
    assert Lower("foo") == "foo";
    assert Lower("Herbert") == "herbert";
    assert !Contains("dune", "foo") by {
      forall i | 0 <= i <= 1 ensures !OccursAt("dune", "foo", i) {
        assert "dune"[i] != 'f';
      }
    }
    assert !Contains("herbert", "foo") by {
      forall i | 0 <= i <= 4 ensures !OccursAt("herbert", "foo", i) {
        assert "herbert"[i] != 'f';
      }
    }
  }
}

=== FILE: repository.dfy ===
/** The Book entity and the repository behind BookService: a map from id to Book, the
    order findAll returns, and the next identifier to hand out. The JPA entity and
    repository lie outside this model; this module is their assumed contract. */
module Repository {
  import opened Common
  import Sequences

  /** The persisted Book entity. */
  datatype Book = Book(
    id: int,
    title: Option<string>,
    author: Option<string>,
    category: Option<string>,
    available: bool,
    borrowedBy: Option<string>)

  /** The three-argument Book(title, author, category) constructor is assumed to start a
      book out available and with no borrower. */
  const InitiallyAvailable := true
  const InitialBorrower: Option<string> := None

  /** A book not yet saved: what `new Book(title, author, category)` carries. */
  datatype Draft = Draft(title: Option<string>, author: Option<string>, category: Option<string>)

  predicate NoDuplicates(s: seq<int>) {
    forall i, j :: 0 <= i < j < |s| ==> s[i] != s[j]
  }

  datatype Repo = Repo(rows: map<int, Book>, order: seq<int>, nextId: int)

  /** Every stored book is filed under its own id, ids come from the allocator (1, 2, ...),
      and `order` lists each stored id exactly once. */
  predicate Consistent(r: Repo) {
    && 1 <= r.nextId
    && (forall k :: k in r.rows ==> r.rows[k].id == k && 1 <= k < r.nextId)
    && (forall i :: 0 <= i < |r.order| ==> r.order[i] in r.rows)
    && (forall k :: k in r.rows ==> k in r.order)
    && NoDuplicates(r.order)
  }

  type Store = r: Repo | Consistent(r) witness Repo(map[], [], 1)

  const Empty: Store := Repo(map[], [], 1)

  /** save(new Book(...)): allocates a fresh id and appends the book. */
  function Insert(s: Store, d: Draft): (r: (Store, Book))
    ensures r.1.id !in s.rows && r.1.id >= 1
    ensures r.0.rows == s.rows[r.1.id := r.1]
    ensures r.0.order == s.order + [r.1.id]
    ensures r.1.title == d.title && r.1.author == d.author && r.1.category == d.category
    ensures r.1.available == InitiallyAvailable && r.1.borrowedBy == InitialBorrower
  {
    var b := Book(s.nextId, d.title, d.author, d.category, InitiallyAvailable, InitialBorrower);
    var s': Repo := Repo(s.rows[b.id := b], s.order + [b.id], s.nextId + 1);
    assert Consistent(s') by {
      assert forall i :: 0 <= i < |s.order| ==> s.order[i] < s.nextId;
    }
    (s', b)
  }

  /** save(existing): overwrites the stored book with the same id; the order is kept. */
  function Put(s: Store, b: Book): (r: Store)
    requires b.id in s.rows
    ensures r.rows == s.rows[b.id := b] && r.order == s.order && r.nextId == s.nextId
    ensures Find(r, b.id) == Some(b) && r.rows.Keys == s.rows.Keys
  {
    var s': Repo := Repo(s.rows[b.id := b], s.order, s.nextId);
    assert Consistent(s');
    s'
  }

  /** findById. */
  function Find(s: Store, id: int): (r: Option<Book>)
    ensures r.Some? <==> id in s.rows
    ensures r.Some? ==> r.value == s.rows[id] && r.value.id == id
  {
    if id in s.rows then Some(s.rows[id]) else None
  }

  /** `s` with every occurrence of `x` removed, the rest in order. */
  function Without(s: seq<int>, x: int): (r: seq<int>)
    ensures forall y :: y in r <==> y in s && y != x
    ensures NoDuplicates(s) ==> NoDuplicates(r)
    ensures |r| <= |s|
  {
    if |s| == 0 then []
    else if s[0] == x then Without(s[1..], x)
    else
      var rest := Without(s[1..], x);
      assert NoDuplicates(s) ==> s[0] !in rest by {
        if NoDuplicates(s) {
          assert forall j :: 0 < j < |s| ==> s[j] != s[0];
        }
      }
      [s[0]] + rest
  }

  /** Removing an id keeps the remaining ids in their order. */
  lemma {:induction false} WithoutKeepsOrder(s: seq<int>, x: int)
    ensures Sequences.IsSubsequence(Without(s, x), s)
  {
    if |s| > 0 {
      WithoutKeepsOrder(s[1..], x);
      var rest := Without(s[1..], x);
      if s[0] == x {
        Sequences.SubsequenceExtend(rest, s[1..], s[0]);
        assert [s[0]] + s[1..] == s;
      } else {
        assert ([s[0]] + rest)[1..] == rest;
      }
    }
  }

  /** deleteById on an existing id. */
  function Remove(s: Store, id: int): (r: Store)
    requires id in s.rows
    ensures r.rows == s.rows - {id}
    ensures r.order == Without(s.order, id)
  {
    var s': Repo := Repo(s.rows - {id}, Without(s.order, id), s.nextId);
    assert Consistent(s') by {
      forall i | 0 <= i < |s'.order|
        ensures s'.order[i] in s'.rows
      {
        assert s'.order[i] in s'.order;
      }
    }
    s'
  }

  /** findAll: every stored book, each exactly once, in repository order. */
  function FindAll(s: Store): (r: seq<Book>)
    ensures forall k :: k in s.rows ==> s.rows[k] in r
    ensures forall b :: b in r ==> b.id in s.rows && s.rows[b.id] == b
    ensures forall i, j :: 0 <= i < j < |r| ==> r[i].id != r[j].id
    ensures |r| == |s.order| && forall i :: 0 <= i < |r| ==> r[i].id == s.order[i]
  {
    var r := seq(|s.order|, i requires 0 <= i < |s.order| => s.rows[s.order[i]]);
    forall k | k in s.rows ensures s.rows[k] in r {
      var i :| 0 <= i < |s.order| && s.order[i] == k;
      assert r[i] == s.rows[k];
    }
    r
  }
}

=== FILE: requests.dfy ===
/** What the client sends for each action (method and URL), how the /books controller
    routes it, and the notice the client shows when the response arrives. */
module Requests {
  import opened Common
  import opened Text
  import opened Catalog

  const ApiUrl := "/books"
  const ItemPrefix := "/books/"
  const BorrowSuffix := "/borrow"
  const ReturnSuffix := "/return"

  datatype Method = Get | Post | Put | Delete

  datatype Request = Request(verb: Method, url: string)

  /** The add/edit form fields. */
  datatype Form = Form(bookId: string, title: string, author: string, category: string)

  /** The `bookData` object handleFormSubmit builds. */
  datatype BookData = BookData(id: Option<string>, title: string, author: string, category: string)

  /** The id field becomes null when empty; the other fields are sent as typed. */
  function FormData(f: Form): (d: BookData)
    ensures d.id.None? <==> f.bookId == ""
    ensures d.id.Some? ==> d.id.value == f.bookId
    ensures d.title == f.title && d.author == f.author && d.category == f.category
  {
    BookData(if f.bookId == "" then None else Some(f.bookId), f.title, f.author, f.category)
  }

  /** handleFormSubmit: PUT while editing, POST otherwise. */
  function SubmitMethod(editing: bool): (m: Method)
    ensures m == Put <==> editing
    ensures m == Post <==> !editing
  {
    if editing then Put else Post
  }

  /** saveBook: PUT addresses /books/{id}, anything else the collection. */
  function SaveRequest(d: BookData, m: Method): (r: Request)
    ensures r.verb == m
    ensures m == Put ==> r.url == ItemPrefix + Printed(d.id)
    ensures m != Put ==> r.url == ApiUrl
  {
    Request(m, if m == Put then ApiUrl + "/" + Printed(d.id) else ApiUrl)
  }

  /** fetchBooks: GET on the collection. */
  const FetchRequest := Request(Get, ApiUrl)

  /** A URL addressing one book: "/books/" followed by something. */
  predicate IsItemUrl(url: string) {
    |url| > |ItemPrefix| && url[..|ItemPrefix|] == ItemPrefix
  }

  /** The part of an item URL between "/books/" and a trailing suffix. */
  function IdSegment(url: string, suffix: string): string
    requires IsItemUrl(url) && EndsWith(url, suffix) && |ItemPrefix| + |suffix| <= |url|
  {
    url[|ItemPrefix|..|url| - |suffix|]
  }

  /** handleBorrowSubmit's request: PUT /books/{currentBorrowId}/borrow, whose id segment
      reads back as the target; the target is null until a borrow dialog has been opened,
      and "null" reads back as no id. */
  function BorrowRequest(target: Option<nat>): (r: Request)
    ensures r.verb == Put
    ensures IsItemUrl(r.url) && EndsWith(r.url, BorrowSuffix) && |ItemPrefix| + |BorrowSuffix| <= |r.url|
    ensures ParseDecimal(IdSegment(r.url, BorrowSuffix)) == target
  {
    var segment := match target case None => "null" case Some(n) => Decimal(n);
    var url := ApiUrl + "/" + segment + BorrowSuffix;
    assert url[..|ItemPrefix|] == ItemPrefix;
    assert url[|ItemPrefix|..|url| - |BorrowSuffix|] == segment;
    assert url[|url| - |BorrowSuffix|..] == BorrowSuffix;
    assert ParseDecimal(segment) == target by {
      if target.Some? {
        ParseDecimalRoundTrip(target.value);
      } else {
        assert !IsDigit(segment[0]);
      }
    }
    Request(Put, url)
  }

  /** returnBook's request: PUT /books/{id}/return, whose id segment reads back as id. */
  function ReturnRequest(id: nat): (r: Request)
    ensures r.verb == Put
    ensures IsItemUrl(r.url) && EndsWith(r.url, ReturnSuffix) && |ItemPrefix| + |ReturnSuffix| <= |r.url|
    ensures ParseDecimal(IdSegment(r.url, ReturnSuffix)) == Some(id)
  {
    var url := ApiUrl + "/" + Decimal(id) + ReturnSuffix;
    assert url[..|ItemPrefix|] == ItemPrefix;
    assert url[|ItemPrefix|..|url| - |ReturnSuffix|] == Decimal(id);
    assert url[|url| - |ReturnSuffix|..] == ReturnSuffix;
    ParseDecimalRoundTrip(id);
    Request(Put, url)
  }

  /** deleteBook's request: DELETE /books/{id}, whose id segment reads back as id. */
  function DeleteRequest(id: nat): (r: Request)
    ensures r.verb == Delete
    ensures IsItemUrl(r.url)
    ensures ParseDecimal(r.url[|ItemPrefix|..]) == Some(id)
  {
    var url := ApiUrl + "/" + Decimal(id);
    assert url[..|ItemPrefix|] == ItemPrefix;
    assert url[|ItemPrefix|..] == Decimal(id);
    ParseDecimalRoundTrip(id);
    Request(Delete, url)
  }

  /** The handler of the /books controller a request reaches; `NoRoute` when no mapping
      matches or the {id} segment is not a number. */
  datatype Endpoint =
    | ListBooks
    | AddBook
    | UpdateBook(id: nat)
    | DeleteBook(id: nat)
    | BorrowBook(id: nat)
    | ReturnBook(id: nat)
    | NoRoute

  /** The controller's mappings: each handler is reached only with its own verb and path
      shape, and the {id} it receives is the number the path segment reads as. */
  function Route(req: Request): (e: Endpoint)
    ensures e == ListBooks ==> req.verb == Get && req.url == ApiUrl
    ensures e == AddBook ==> req.verb == Post && req.url == ApiUrl
    ensures e.UpdateBook? ==> req.verb == Put && IsItemUrl(req.url) && ParseDecimal(req.url[|ItemPrefix|..]) == Some(e.id)
    ensures e.DeleteBook? ==> req.verb == Delete && IsItemUrl(req.url) && ParseDecimal(req.url[|ItemPrefix|..]) == Some(e.id)
    ensures e.BorrowBook? ==>
      && req.verb == Put && IsItemUrl(req.url) && EndsWith(req.url, BorrowSuffix)
      && |ItemPrefix| + |BorrowSuffix| <= |req.url|
      && ParseDecimal(IdSegment(req.url, BorrowSuffix)) == Some(e.id)
    ensures e.ReturnBook? ==>
      && req.verb == Put && IsItemUrl(req.url) && EndsWith(req.url, ReturnSuffix)
      && |ItemPrefix| + |ReturnSuffix| <= |req.url|
      && ParseDecimal(IdSegment(req.url, ReturnSuffix)) == Some(e.id)
  {
    if req.url == ApiUrl then
      match req.verb
      case Get => ListBooks
      case Post => AddBook
      case _ => NoRoute
    else if IsItemUrl(req.url) then
      var rest := req.url[|ItemPrefix|..];
      var e := RouteItem(req.verb, rest);
      assert (e.BorrowBook? || e.ReturnBook?) ==> req.url[|req.url| - 7..] == rest[|rest| - 7..];
      assert e.BorrowBook? ==> IdSegment(req.url, BorrowSuffix) == rest[..|rest| - |BorrowSuffix|];
      assert e.ReturnBook? ==> IdSegment(req.url, ReturnSuffix) == rest[..|rest| - |ReturnSuffix|];
      e
    else NoRoute
  }

  /** Routing of the part of the path after "/books/". */
  function RouteItem(m: Method, rest: string): (e: Endpoint)
    ensures e.UpdateBook? ==> m == Put && ParseDecimal(rest) == Some(e.id)
    ensures e.DeleteBook? ==> m == Delete && ParseDecimal(rest) == Some(e.id)
    ensures e.BorrowBook? ==> m == Put && EndsWith(rest, BorrowSuffix) && ParseDecimal(rest[..|rest| - |BorrowSuffix|]) == Some(e.id)
    ensures e.ReturnBook? ==> m == Put && EndsWith(rest, ReturnSuffix) && ParseDecimal(rest[..|rest| - |ReturnSuffix|]) == Some(e.id)
    ensures e != ListBooks && e != AddBook
  {
    if EndsWith(rest, BorrowSuffix) then
      match ParseDecimal(rest[..|rest| - |BorrowSuffix|])
      case Some(id) => if m == Put then BorrowBook(id) else NoRoute
      case None => NoRoute
    else if EndsWith(rest, ReturnSuffix) then
      match ParseDecimal(rest[..|rest| - |ReturnSuffix|])
      case Some(id) => if m == Put then ReturnBook(id) else NoRoute
      case None => NoRoute
    else
      match ParseDecimal(rest)
      case Some(id) => if m == Put then UpdateBook(id) else if m == Delete then DeleteBook(id) else NoRoute
      case None => NoRoute
  }

  /** A path "/books/<digits of id><suffix>" is routed on its remainder. */
  lemma ItemPath(m: Method, id: nat, suffix: string)
    ensures var url := ApiUrl + "/" + Decimal(id) + suffix;
      Route(Request(m, url)) == RouteItem(m, Decimal(id) + suffix)
  {
    var url := ApiUrl + "/" + Decimal(id) + suffix;
    assert url[..|ItemPrefix|] == ItemPrefix;
    assert url[|ItemPrefix|..] == Decimal(id) + suffix;
    assert |url| > |ApiUrl|;
  }

  /** A bare id never ends with one of the action suffixes, which start with '/'. */
  lemma DigitsEndNoSuffix(id: nat, suffix: string)
    requires |suffix| > 0 && suffix[0] == '/'
    ensures !EndsWith(Decimal(id), suffix)
  {
  }

  /** The form reaches addBook when adding, and updateBook on the book's id when editing
      with the id field set; editing with an empty id field sends PUT /books/null, which
      reaches no handler. */
  lemma SaveReachesIntendedHandler(f: Form, id: nat)
    ensures Route(SaveRequest(FormData(f), SubmitMethod(false))) == AddBook
    ensures f.bookId == Decimal(id) ==> Route(SaveRequest(FormData(f), SubmitMethod(true))) == UpdateBook(id)
    ensures f.bookId == "" ==> Route(SaveRequest(FormData(f), SubmitMethod(true))) == NoRoute
  {
    if f.bookId == Decimal(id) {
      ItemPath(Put, id, "");
      assert Decimal(id) + "" == Decimal(id);
      DigitsEndNoSuffix(id, BorrowSuffix);
      DigitsEndNoSuffix(id, ReturnSuffix);
      ParseDecimalRoundTrip(id);
    }
    if f.bookId == "" {
      var url := SaveRequest(FormData(f), Put).url;
      assert url == "/books/null";
      assert url[|ItemPrefix|..] == "null";
      assert !IsDigit('n');
    }
  }

  /** fetchBooks' request reaches getAllBooks. */
  lemma FetchRequestRouted()
    ensures Route(FetchRequest) == ListBooks
  {
  }

  /** The borrow request for an id reaches borrowBook for that id. */
  lemma BorrowRequestRouted(id: nat)
    ensures Route(BorrowRequest(Some(id))) == BorrowBook(id)
  {
    ParseDecimalRoundTrip(id);
    ItemPath(Put, id, BorrowSuffix);
    var b := Decimal(id) + BorrowSuffix;
    assert b[..|b| - |BorrowSuffix|] == Decimal(id);
  }

  /** The return request for an id reaches returnBook for that id. */
  lemma ReturnRequestRouted(id: nat)
    ensures Route(ReturnRequest(id)) == ReturnBook(id)
  {
    ParseDecimalRoundTrip(id);
    ItemPath(Put, id, ReturnSuffix);
    var r := Decimal(id) + ReturnSuffix;
    assert r[..|r| - |ReturnSuffix|] == Decimal(id);
    assert r[|r| - 1] == 'n';
  }

  /** The delete request for an id reaches deleteBook for that id. */
  lemma DeleteRequestRouted(id: nat)
    ensures Route(DeleteRequest(id)) == DeleteBook(id)
  {
    ParseDecimalRoundTrip(id);
    ItemPath(Delete, id, "");
    assert Decimal(id) + "" == Decimal(id);
    DigitsEndNoSuffix(id, BorrowSuffix);
    DigitsEndNoSuffix(id, ReturnSuffix);
  }

  /** Before a borrow dialog has been opened the target is null: PUT /books/null/borrow
      reaches no handler. */
  lemma BorrowWithoutTargetUnrouted()
    ensures Route(BorrowRequest(None)) == NoRoute
  {
    var url := BorrowRequest(None).url;
    assert url == "/books/null/borrow";
    assert url[..|ItemPrefix|] == ItemPrefix;
    var rest := url[|ItemPrefix|..];
    assert rest == "null/borrow";
    assert EndsWith(rest, BorrowSuffix);
    assert rest[..|rest| - |BorrowSuffix|] == "null";
    assert !IsDigit("null"[0]);
  }

  /** The action whose response is being handled; Save carries its verb and the optional
      success message saveBook accepts. */
  datatype Operation = Save(verb: Method, successMsg: Option<string>) | Borrow | Return | Remove

  /** A failed response body: parsed JSON (its `message` member and its JSON.stringify
      text), or a body that is not JSON (with the parser's error message). */
  datatype ErrorBody = Json(message: Option<string>, serialized: string) | NotJson(parserMessage: string)

  /** A mutation's outcome: a 2xx response, a non-2xx response with its body, or no
      response at all (fetch rejected, with the error's message). */
  datatype Response = Succeeded | Failed(body: ErrorBody) | Unreachable(reason: string)

  const ActionFailed := "Action failed"
  const BorrowingFailed := "Borrowing failed"
  const ReturnFailed := "Return failed"
  const FailedToDelete := "Failed to delete"

  /** The text of the error notice. Return and delete read a non-JSON body as `{}`; save and
      borrow do not catch the parse error, so its message is what the user sees. */
  function ErrorText(op: Operation, body: ErrorBody): (r: string)
    ensures body.Json? && body.message.Some? && body.message.value != "" ==> r == body.message.value
    ensures body.Json? && JsOr(body.message, "") == "" ==>
      r == (match op
            case Save(_, _) => JsOr(Some(body.serialized), ActionFailed)
            case Borrow => BorrowingFailed
            case Return => ReturnFailed
            case Remove => FailedToDelete)
    ensures body.NotJson? ==>
      r == (match op
            case Save(_, _) => body.parserMessage
            case Borrow => body.parserMessage
            case Return => ReturnFailed
            case Remove => FailedToDelete)
  {
    match body
    case NotJson(reason) =>
      (match op
       case Save(_, _) => reason
       case Borrow => reason
       case Return => ReturnFailed
       case Remove => FailedToDelete)
    case Json(message, serialized) =>
      var fallback := match op
        case Save(_, _) => JsOr(Some(serialized), ActionFailed)
        case Borrow => BorrowingFailed
        case Return => ReturnFailed
        case Remove => FailedToDelete;
      JsOr(message, fallback)
  }

  /** JSON.stringify of a parsed body is never empty, so for such a body saveBook shows the
      server's message or the serialized body, never "Action failed" by itself. */
  lemma SaveNeverShowsGenericText(m: Method, o: Option<string>, message: Option<string>, serialized: string)
    requires serialized != ""
    ensures ErrorText(Save(m, o), Json(message, serialized)) == JsOr(message, serialized)
  {
  }

  /** The text of the success notice. */
  function SuccessText(op: Operation): (r: string)
    ensures r != ""
    ensures op.Save? && JsOr(op.successMsg, "") != "" ==> r == op.successMsg.value
    ensures op.Save? && JsOr(op.successMsg, "") == "" ==> r == (if op.verb == Post then "Book Added" else "Book Updated")
    ensures op == Borrow ==> r == "Book Borrowed!"
    ensures op == Return ==> r == "Book Returned!"
    ensures op == Remove ==> r == "Book deleted"
  {
    match op
    case Save(m, o) => JsOr(o, if m == Post then "Book Added" else "Book Updated")
    case Borrow => "Book Borrowed!"
    case Return => "Book Returned!"
    case Remove => "Book deleted"
  }

  /** Without an override the five success notices are pairwise different, and none of them
      reads like one of the generic failure texts. */
  lemma SuccessNoticesDistinct()
    ensures var texts := [SuccessText(Save(Post, None)), SuccessText(Save(Put, None)),
                          SuccessText(Borrow), SuccessText(Return), SuccessText(Remove)];
      && (forall i, j :: 0 <= i < j < |texts| ==> texts[i] != texts[j])
      && (forall i :: 0 <= i < |texts| ==> texts[i] !in {ActionFailed, BorrowingFailed, ReturnFailed, FailedToDelete})
  {
  }

  /** The toast shown once a response has arrived. */
  datatype Notice = Notice(text: string, isError: bool)

  /** How the client settles a response: the notice it shows, and whether it refetches
      the catalogue (only after success). */
  datatype Settlement = Settlement(notice: Notice, reload: bool)

  function Settle(op: Operation, resp: Response): (r: Settlement)
    ensures r.reload <==> resp.Succeeded?
    ensures r.notice.isError <==> !resp.Succeeded?
    ensures resp.Failed? ==> r.notice.text == ErrorText(op, resp.body)
    ensures resp.Unreachable? ==> r.notice.text == resp.reason
    ensures resp.Succeeded? ==> r.notice.text == SuccessText(op)
  {
    match resp
    case Succeeded => Settlement(Notice(SuccessText(op), false), true)
    case Failed(body) => Settlement(Notice(ErrorText(op, body), true), false)
    case Unreachable(reason) => Settlement(Notice(reason, true), false)
  }
}

=== FILE: sequences.dfy ===
/** Order-preserving subsequences, used to state what a filter keeps. */
module Sequences {

  /** `a` can be obtained from `b` by deleting elements, without reordering
      (checked by greedy matching, which is complete for subsequences). */
  predicate IsSubsequence<T(==)>(a: seq<T>, b: seq<T>)
    decreases |b|
  {
    if |a| == 0 then true
    else if |b| == 0 then false
    else if a[0] == b[0] then IsSubsequence(a[1..], b[1..])
    else IsSubsequence(a, b[1..])
  }

  /** Dropping the first element of a subsequence keeps it a subsequence. */
  lemma {:induction false} SubsequenceDropHead<T>(a: seq<T>, b: seq<T>)
    requires |a| > 0 && IsSubsequence(a, b)
    ensures IsSubsequence(a[1..], b)
    decreases |b|, 0
  {
    if a[0] == b[0] {
      SubsequenceExtend(a[1..], b[1..], b[0]);
      assert [b[0]] + b[1..] == b;
    } else {
      SubsequenceDropHead(a, b[1..]);
      SubsequenceExtend(a[1..], b[1..], b[0]);
      assert [b[0]] + b[1..] == b;
    }
  }

  /** A subsequence of b is a subsequence of x prepended to b. */
  lemma {:induction false} SubsequenceExtend<T>(a: seq<T>, b: seq<T>, x: T)
    requires IsSubsequence(a, b)
    ensures IsSubsequence(a, [x] + b)
    decreases |b|, 1
  {
    var xb := [x] + b;
    assert xb[1..] == b;
    if |a| > 0 && a[0] == x {
      SubsequenceDropHead(a, b);
    }
  }
}

=== FILE: service.dfy ===
/** BookService: the lending state machine and catalogue maintenance over the repository.
    Each operation either fails (the Java exception becomes `Err`, and the caller keeps its
    store) or yields the new store together with the DTO the service returns. */
module Service {
  import opened Common
  import Text
  import opened Dto
  import opened Repository

  /** BookNotFoundException and BookAlreadyBorrowedException. */
  datatype ServiceError = NotFound(id: int) | AlreadyBorrowed(borrower: Option<string>)

  const NotFoundPrefix := "Book not found with id: "
  const BorrowedPrefix := "Book is already borrowed by: "

  /** The exception message each error carries: a fixed prefix, then the id in decimal
      (read back by parsing) or the borrower as Java prints it. */
  function Message(e: ServiceError): (r: string)
    ensures e.NotFound? ==> |r| > |NotFoundPrefix| && r[..|NotFoundPrefix|] == NotFoundPrefix
    ensures e.NotFound? && e.id >= 0 ==> Text.ParseDecimal(r[|NotFoundPrefix|..]) == Some(e.id)
    ensures e.NotFound? && e.id < 0 ==>
      r[|NotFoundPrefix|] == '-' && Text.ParseDecimal(r[|NotFoundPrefix| + 1..]) == Some(-e.id)
    ensures e.AlreadyBorrowed? ==> |r| >= |BorrowedPrefix| && r[..|BorrowedPrefix|] == BorrowedPrefix
    ensures e.NotFound? && e.id != 0 ==> r[|NotFoundPrefix|] != '0'
    ensures e.NotFound? && e.id == 0 ==> r == NotFoundPrefix + "0"
    ensures e.AlreadyBorrowed? ==> r[|BorrowedPrefix|..] == Text.Printed(e.borrower)
  {
    match e
    case NotFound(id) =>
      var digits := Text.Decimal(if id < 0 then -id else id);
      Text.ParseDecimalRoundTrip(if id < 0 then -id else id);
      assert (NotFoundPrefix + Text.IntText(id))[|NotFoundPrefix|..] == Text.IntText(id);
      assert id < 0 ==> Text.IntText(id)[1..] == digits;
      NotFoundPrefix + Text.IntText(id)
    case AlreadyBorrowed(b) => BorrowedPrefix + Text.Printed(b)
  }

  /** A not-found message is never mistaken for an already-borrowed one. */
  lemma MessagesDistinct(id: int, b: Option<string>)
    ensures Message(NotFound(id)) != Message(AlreadyBorrowed(b))
  {
  }

  /** The store after a successful call, and the DTO the call returns. */
  datatype Saved = Saved(store: Store, dto: BookDto)

  /** mapToDTO: a field-by-field copy of the entity. */
  function MapToDto(b: Book): (d: BookDto)
    ensures EntityOf(d) == Some(b)
  {
    BookDto(Some(b.id), b.title, b.author, b.category, b.available, b.borrowedBy)
  }

  /** mapToEntity: only title, author and category reach the new entity. */
  function MapToEntity(d: BookDto): (r: Draft)
    ensures r.title == d.title && r.author == d.author && r.category == d.category
    ensures forall b :: MapToDto(b) == d ==> r.title == b.title && r.author == b.author && r.category == b.category
  {
    Draft(d.title, d.author, d.category)
  }

  /** The entity a DTO describes, when it names an id: the reference inverse of MapToDto. */
  function EntityOf(d: BookDto): Option<Book> {
    if d.id.None? then None
    else Some(Book(d.id.value, d.title, d.author, d.category, d.available, d.borrowedBy))
  }

  /** mapToDTO loses nothing: the entity can be read back from the DTO. */
  lemma MapToDtoLossless(b: Book)
    ensures EntityOf(MapToDto(b)) == Some(b)
  {
  }

  /** Id, title, author and category agree. */
  predicate SameMetadata(a: Book, b: Book) {
    a.id == b.id && a.title == b.title && a.author == b.author && a.category == b.category
  }

  /** `after` differs from `before` at most in the book filed under `id`. */
  predicate OnlyChanged(before: Store, after: Store, id: int) {
    && after.rows.Keys == before.rows.Keys
    && after.order == before.order
    && forall k :: k in before.rows && k != id ==> after.rows[k] == before.rows[k]
  }

  /** addBook: saves a new book built from title, author and category only. */
  function AddBook(s: Store, d: BookDto): (r: Saved)
    requires Valid(d)
    ensures r.dto.id.Some? && r.dto.id.value !in s.rows
    ensures var id := r.dto.id.value;
      && r.store.rows.Keys == s.rows.Keys + {id}
      && (forall k :: k in s.rows ==> r.store.rows[k] == s.rows[k])
      && r.store.order == s.order + [id]
      && EntityOf(r.dto) == Some(r.store.rows[id])
    ensures r.dto.title == d.title && r.dto.author == d.author && r.dto.category == d.category
    ensures r.dto.available == InitiallyAvailable && r.dto.borrowedBy == InitialBorrower
  {
    var (s', b) := Insert(s, MapToEntity(d));
    Saved(s', MapToDto(b))
  }

  /** getAllBooks: one DTO per stored book, in repository order. */
  method GetAllBooks(s: Store) returns (dtos: seq<BookDto>)
    ensures |dtos| == |FindAll(s)|
    ensures forall i :: 0 <= i < |dtos| ==> EntityOf(dtos[i]) == Some(FindAll(s)[i])
    ensures forall id :: id in s.rows <==> exists i :: 0 <= i < |dtos| && dtos[i].id == Some(id)
  {
    var all := FindAll(s);
    dtos := [];
    var i := 0;
    while i < |all|
      invariant 0 <= i <= |all|
      invariant |dtos| == i
      invariant forall j :: 0 <= j < i ==> dtos[j] == MapToDto(all[j])
    {
      dtos := dtos + [MapToDto(all[i])];
      i := i + 1;
    }
    forall id | id in s.rows
      ensures exists i :: 0 <= i < |dtos| && dtos[i].id == Some(id)
    {
      var k :| 0 <= k < |s.order| && s.order[k] == id;
      assert dtos[k].id == Some(id);
    }
  }

  /** updateBook: replaces title, author and category of an existing book. */
  function UpdateBook(s: Store, id: int, d: BookDto): (r: Result<Saved, ServiceError>)
    requires Valid(d)
    ensures id !in s.rows ==> r == Err(NotFound(id))
    ensures id in s.rows ==> r.Ok? && OnlyChanged(s, r.value.store, id)
    ensures r.Ok? ==>
      var before := s.rows[id];
      var after := r.value.store.rows[id];
      && after.id == id
      && after.title == d.title && after.author == d.author && after.category == d.category
      && after.available == before.available && after.borrowedBy == before.borrowedBy
      && EntityOf(r.value.dto) == Some(after)
  {
    match Find(s, id)
    case None => Err(NotFound(id))
    case Some(b) =>
      var b' := b.(title := d.title, author := d.author, category := d.category);
      Ok(Saved(Put(s, b'), MapToDto(b')))
  }

  /** borrowBook: lends an available book to `borrower`. */
  function BorrowBook(s: Store, id: int, borrower: string): (r: Result<Saved, ServiceError>)
    requires Text.NotBlank(borrower)
    ensures id !in s.rows ==> r == Err(NotFound(id))
    ensures id in s.rows && !s.rows[id].available ==>
      && r == Err(AlreadyBorrowed(s.rows[id].borrowedBy))
      && Text.EndsWith(Message(r.error), Text.Printed(s.rows[id].borrowedBy))
    ensures id in s.rows && s.rows[id].available ==> r.Ok? && OnlyChanged(s, r.value.store, id)
    ensures r.Ok? ==>
      var before := s.rows[id];
      var after := r.value.store.rows[id];
      && before.available
      && SameMetadata(before, after)
      && !after.available && after.borrowedBy == Some(borrower)
      && EntityOf(r.value.dto) == Some(after)
  {
    match Find(s, id)
    case None => Err(NotFound(id))
    case Some(b) =>
      if !b.available then Err(AlreadyBorrowed(b.borrowedBy))
      else
        var b' := b.(available := false, borrowedBy := Some(borrower));
        Ok(Saved(Put(s, b'), MapToDto(b')))
  }

  /** returnBook: makes an existing book available again, whatever its state. */
  function ReturnBook(s: Store, id: int): (r: Result<Saved, ServiceError>)
    ensures id !in s.rows ==> r == Err(NotFound(id))
    ensures id in s.rows ==> r.Ok? && OnlyChanged(s, r.value.store, id)
    ensures r.Ok? ==>
      var after := r.value.store.rows[id];
      && SameMetadata(s.rows[id], after)
      && after.available && after.borrowedBy.None?
      && EntityOf(r.value.dto) == Some(after)
  {
    match Find(s, id)
    case None => Err(NotFound(id))
    case Some(b) =>
      var b' := b.(available := true, borrowedBy := None);
      Ok(Saved(Put(s, b'), MapToDto(b')))
  }

  /** deleteBook: removes an existing book, borrowed or not. */
  function DeleteBook(s: Store, id: int): (r: Result<Store, ServiceError>)
    ensures id !in s.rows ==> r == Err(NotFound(id))
    ensures id in s.rows ==>
      && r.Ok?
      && r.value.rows.Keys == s.rows.Keys - {id}
      && (forall k :: k in r.value.rows ==> r.value.rows[k] == s.rows[k])
      && r.value.order == Without(s.order, id)
  {
    if Find(s, id).None? then Err(NotFound(id)) else Ok(Remove(s, id))
  }
}

=== FILE: service_properties.dfy ===
/** Properties of BookService as seen through the /books controller: the requests it
    accepts, the lending invariant they preserve, and the round trips between operations. */
module ServiceProperties {
  import opened Common
  import Text
  import opened Dto
  import opened Repository
  import opened Service

  /** A state-changing request that reaches the controller. */
  datatype Command =
    | Add(dto: BookDto)
    | Update(id: int, dto: BookDto)
    | Borrow(id: int, borrower: string)
    | Return(id: int)
    | Delete(id: int)

  /** `@Valid` on the request body: add and update need a valid BookDTO, borrow a
      non-blank borrower name (BorrowRequest's @NotBlank); return and delete have no body. */
  predicate Admissible(c: Command) {
    match c
    case Add(d) => Valid(d)
    case Update(_, d) => Valid(d)
    case Borrow(_, name) => Text.NotBlank(name)
    case _ => true
  }

  /** The store after a request: a rejected body (400) or a thrown exception leaves it
      as it was; otherwise it is the store the service saved. */
  function Apply(s: Store, c: Command): (r: Store)
    ensures !Admissible(c) ==> r == s
    ensures forall k :: k in s.rows && Target(c) != Some(k) ==> k in r.rows && r.rows[k] == s.rows[k]
  {
    if !Admissible(c) then s
    else match c
      case Add(d) => AddBook(s, d).store
      case Update(id, d) => (match UpdateBook(s, id, d) case Ok(v) => v.store case Err(_) => s)
      case Borrow(id, name) => (match BorrowBook(s, id, name) case Ok(v) => v.store case Err(_) => s)
      case Return(id) => (match ReturnBook(s, id) case Ok(v) => v.store case Err(_) => s)
      case Delete(id) => (match DeleteBook(s, id) case Ok(v) => v case Err(_) => s)
  }

  function Run(s: Store, cs: seq<Command>): Store
    decreases |cs|
  {
    if |cs| == 0 then s else Run(Apply(s, cs[0]), cs[1..])
  }

  /** A book is available exactly when it has no borrower, and a lent book names a
      non-blank borrower. */
  predicate Lending(b: Book) {
    && (b.available <==> b.borrowedBy.None?)
    && (!b.available ==> Text.NotBlank(b.borrowedBy.value))
  }

  predicate LendingInvariant(s: Store) {
    forall k :: k in s.rows ==> Lending(s.rows[k])
  }

  /** Every request the controller accepts or rejects preserves the lending invariant. */
  lemma ApplyPreservesLending(s: Store, c: Command)
    requires LendingInvariant(s)
    ensures LendingInvariant(Apply(s, c))
  {
  }

  /** The invariant holds after any sequence of requests from a store where it holds (the empty store included). */
  lemma {:induction false} RunPreservesLending(s: Store, cs: seq<Command>)
    requires LendingInvariant(s)
    ensures LendingInvariant(Run(s, cs))
    decreases |cs|
  {
    if |cs| > 0 {
      ApplyPreservesLending(s, cs[0]);
      RunPreservesLending(Apply(s, cs[0]), cs[1..]);
    }
  }

  /** The id a single-book request addresses (an add addresses none of the stored ids). */
  function Target(c: Command): Option<int> {
    match c
    case Add(_) => None
    case Update(id, _) => Some(id)
    case Borrow(id, _) => Some(id)
    case Return(id) => Some(id)
    case Delete(id) => Some(id)
  }

  /** No request changes or removes a stored book other than the one it addresses. */
  lemma OthersUntouched(s: Store, c: Command, k: int)
    requires k in s.rows && Target(c) != Some(k)
    ensures k in Apply(s, c).rows && Apply(s, c).rows[k] == s.rows[k]
  {
  }

  /** addBook ignores any id, availability or borrower the client supplied. */
  lemma AddIgnoresClientFields(s: Store, d: BookDto, id: Option<int>, available: bool, borrowedBy: Option<string>)
    requires Valid(d)
    ensures Valid(d.(id := id, available := available, borrowedBy := borrowedBy))
    ensures AddBook(s, d.(id := id, available := available, borrowedBy := borrowedBy)) == AddBook(s, d)
  {
  }

  /** Borrowing an available book and returning it gives back the store and the book
      exactly as they were. */
  lemma BorrowThenReturn(s: Store, id: int, borrower: string)
    requires LendingInvariant(s)
    requires id in s.rows && s.rows[id].available
    requires Text.NotBlank(borrower)
    ensures BorrowBook(s, id, borrower).Ok?
    ensures var lent := BorrowBook(s, id, borrower).value.store;
      ReturnBook(lent, id) == Ok(Saved(s, MapToDto(s.rows[id])))
  {
    var lent := BorrowBook(s, id, borrower).value.store;
    var back := ReturnBook(lent, id).value.store;
    assert back.rows[id] == s.rows[id];
    assert back.rows == s.rows;
  }

  /** Returning twice has the same effect as returning once. */
  lemma ReturnIdempotent(s: Store, id: int)
    requires id in s.rows
    ensures var once := ReturnBook(s, id).value;
      ReturnBook(once.store, id) == Ok(once)
  {
    var once := ReturnBook(s, id).value;
    assert once.store.rows[id := once.store.rows[id]] == once.store.rows;
  }

  /** A lent book is refused to a second borrower and nothing changes. */
  lemma BorrowTwiceRefused(s: Store, id: int, first: string, second: string)
    requires id in s.rows && s.rows[id].available
    requires Text.NotBlank(first) && Text.NotBlank(second)
    ensures var lent := BorrowBook(s, id, first).value.store;
      && BorrowBook(lent, id, second) == Err(AlreadyBorrowed(Some(first)))
      && Apply(lent, Borrow(id, second)) == lent
  {
  }

  /** Delete performs no availability check: a lent book can be deleted, after which
      every single-book operation on its id fails with not-found. */
  lemma DeleteLentBook(s: Store, id: int, borrower: string, d: BookDto)
    requires id in s.rows && s.rows[id].available
    requires Text.NotBlank(borrower) && Valid(d)
    ensures var lent := BorrowBook(s, id, borrower).value.store;
      && DeleteBook(lent, id).Ok?
      && var gone := DeleteBook(lent, id).value;
         && id !in gone.rows
         && ReturnBook(gone, id) == Err(NotFound(id))
         && BorrowBook(gone, id, borrower) == Err(NotFound(id))
         && UpdateBook(gone, id, d) == Err(NotFound(id))
         && DeleteBook(gone, id) == Err(NotFound(id))
  {
  }
}

=== FILE: text.dfy ===
/** Text helpers shared by the server and client models. */
module Text {
  import opened Common

  /** Characters removed by Java's String.trim(): every code point at or below U+0020.
      Bean Validation's @NotBlank accepts a string iff trimming leaves something. */
  predicate IsTrimmable(c: char) {
    c <= ' '
  }

  /** A non-null string satisfying @NotBlank. */
  predicate NotBlank(s: string) {
    exists i :: 0 <= i < |s| && !IsTrimmable(s[i])
  }

  /** How Java string concatenation and JavaScript template literals print a string
      reference: a null one prints as "null". */
  function Printed(v: Option<string>): (r: string)
    ensures v.Some? ==> r == v.value
    ensures v.None? ==> r == "null"
  {
    match v
    case None => "null"
    case Some(s) => s
  }

  /** ASCII case mapping; JavaScript's toLowerCase is full Unicode case mapping,
      which this model restricts to the ASCII letters. */
  function LowerChar(c: char): char {
    if 'A' <= c <= 'Z' then (c as int + 32) as char else c
  }

  function Lower(s: string): (r: string)
    ensures |r| == |s|
    ensures forall i :: 0 <= i < |s| ==> r[i] == LowerChar(s[i])
  {
    seq(|s|, i requires 0 <= i < |s| => LowerChar(s[i]))
  }

  /** Lower-casing twice is the same as lower-casing once. */
  lemma LowerIdempotent(s: string)
    ensures Lower(Lower(s)) == Lower(s)
  {
  }

  /** `needle` occurs in `hay` starting at index i. */
  predicate OccursAt(hay: string, needle: string, i: int) {
    0 <= i && i + |needle| <= |hay| && hay[i..i + |needle|] == needle
  }

  /** JavaScript's String.prototype.includes. */
  predicate Contains(hay: string, needle: string) {
    exists i :: 0 <= i <= |hay| - |needle| && OccursAt(hay, needle, i)
  }

  /** The empty string is contained in every string. */
  lemma ContainsEmpty(hay: string)
    ensures Contains(hay, "")
  {
    assert OccursAt(hay, "", 0);
  }

  predicate EndsWith(s: string, suffix: string) {
    |suffix| <= |s| && s[|s| - |suffix|..] == suffix
  }

  predicate IsDigit(c: char) {
    '0' <= c <= '9'
  }

  function DigitChar(d: nat): (c: char)
    requires d < 10
    ensures IsDigit(c)
  {
    ('0' as int + d) as char
  }

  function DigitValue(c: char): (d: nat)
    requires IsDigit(c)
    ensures d < 10 && DigitChar(d) == c
  {
    c as int - '0' as int
  }

  predicate AllDigits(s: string) {
    forall i :: 0 <= i < |s| ==> IsDigit(s[i])
  }

  /** Decimal rendering of a natural number, as JavaScript's template literals and
      Java's string concatenation print one. */
  function Decimal(n: nat): (r: string)
    ensures |r| > 0 && AllDigits(r)
    ensures n == 0 <==> r == "0"
    ensures n > 0 ==> r[0] != '0'
    decreases n
  {
    if n < 10 then [DigitChar(n)] else Decimal(n / 10) + [DigitChar(n % 10)]
  }

  /** Decimal rendering of a (possibly negative) Java long. */
  function IntText(n: int): string {
    if n < 0 then "-" + Decimal(-n) else Decimal(n)
  }

  function DigitsValue(s: string): nat
    requires AllDigits(s)
    decreases |s|
  {
    if |s| == 0 then 0 else DigitsValue(s[..|s| - 1]) * 10 + DigitValue(s[|s| - 1])
  }

  /** Parses an unsigned decimal path segment; anything else (empty, a sign, "null") is rejected. */
  function ParseDecimal(s: string): Option<nat> {
    if |s| > 0 && AllDigits(s) then Some(DigitsValue(s)) else None
  }

  /** Parsing the decimal rendering of n gives back n. */
  lemma {:induction false} ParseDecimalRoundTrip(n: nat)
    ensures ParseDecimal(Decimal(n)) == Some(n)
  {
    if n >= 10 {
      ParseDecimalRoundTrip(n / 10);
      var s := Decimal(n);
      assert s[..|s| - 1] == Decimal(n / 10);
      assert DigitValue(s[|s| - 1]) == n % 10;
    } else {
      var s := Decimal(n);
      assert s[..|s| - 1] == [];
      assert s[0] == DigitChar(n);
      assert DigitValue(s[0]) == n;
      assert DigitsValue(s) == n;
    }
  }
}
